=== FILE: README.md ===
# Onboarding UI rules, modelled in Dafny

This is a model of the deterministic rules inside four React components of an onboarding front end:

- **Interview** (`src/components/chatBot.jsx`) is the HR interview dialogue. It holds a turn counter `questionCount` and an append-only transcript `messages` of `{user, bot}` records. The component guards against blank input and picks one of three prompt instructions (greeting, next question, final decision). Once `questionCount >= questionLimit + 1` it asks for a shortlist verdict, where any reply containing `"yes"` shortlists the candidate. The text generator is abstract: each request either throws or answers with a payload whose text may be missing.
- **Proctor** (`src/components/HRChatbot.jsx`) is the interview monitor. It has three parts:
  - the presence/deception effect keyed on the face count, modelled as a fold over the change points of the counts the detector reports;
  - the per-second countdown from 600;
  - `formatTime`, which renders seconds as `m:ss`.
- **Upload** (`src/pages/VerifyDocument.jsx`) is the document-verification form. It covers:
  - the `handleFile` type/size gate;
  - the zoom clamp;
  - the simulated progress bar;
  - the document-ID increment (`/\d+$/` replaced by value + 1, left-padded to the run's width);
  - the guards of `handleApprove`, with its success reset and failure status.
- **Onboarding** (`src/pages/dashboard.jsx`) is the step tracker. It covers `routeStepMap`, the location effect that marks steps completed, active or future, and `getStatusColor`.

Three helper modules give JavaScript built-ins a precise meaning:

- `Text`: `trim` with the ECMAScript whitespace set, `includes`, and ASCII `toLowerCase`.
- `Decimal`: `parseInt` of a digit run, `Number#toString`, and `padStart`.
- `Options`: an optional value.

Every operation is a pure function from the component's state and its inputs to the next state. React's state updates are folded into the functions that perform them. An effect keyed on a value runs only when that value changes.

In these places the code behaves differently from what a reader of the component would expect, and the model follows the code:

- A generation request that throws leaves the transcript and the counter unchanged. It only stores the retry notice in `generatedAnswer`, which the component never renders (`chatBot.jsx` lines 72-74).
- `text || fallback` also replaces an empty reply text with the fallback.
- A failed request, for a reply or for a verdict, leaves no visible trace. The component renders the transcript and, once shortlisted, an offer-letter link, and a failure changes neither. At most the candidate sees the spinner stop. The error goes to the console.
- The presence effect also runs on mount, with count 0. That run counts as one deception. A session whose detector reports `[1, 1, 0, 2, 1]` therefore ends with 3 deceptions, not 2.
- The expiry branch of the countdown is taken on the tick that finds 0, which is the 601st tick. That tick still returns `prev - 1`, so the clock ends on -1, and `formatTime(-1)` is `-1:0-1`.
- After the verdict becomes due, every later completed exchange asks for a verdict again. The shortlist flag is never cleared.

## Model

| member | source | states |
|---|---|---|
| `Interview.Instruct` | src/components/chatBot.jsx:46-48 | exactly one of greeting (count 0), final decision (count at least the limit of 2) and next question (in between) |
| `Interview.ReplyText` | src/components/chatBot.jsx:65 | the bot text is never empty: the payload's text when it is non-empty, the fallback sentence when the text is missing or empty (`||` treats `''` as falsy) |
| `Interview.Submit` | src/components/chatBot.jsx:22-78 | ignored exactly when the input is blank under JavaScript `trim`. When sent, the instruction follows the count. A throw keeps transcript and count and stores the retry notice in the unrendered `generatedAnswer`. An answer appends exactly one `{input, text or fallback}` record after the unchanged earlier ones and adds 1 to the count |
| `Interview.CheckQuestionLimit` | src/components/chatBot.jsx:80-133 | a verdict request is made exactly when the count is at least 3. It never touches transcript or count. Afterwards the candidate is shortlisted iff they already were or the reply text contains `"yes"`. A throw leaves the flag and stores the retry notice in the unrendered `generatedAnswer` |
| `Interview.VerdictCommutesWithSubmit` | src/components/chatBot.jsx:68-127 | a verdict settling before or after a concurrent submission leaves the same transcript, count and shortlist flag |
| `Interview.Exchange` | src/components/chatBot.jsx:68-133 | a submission followed by the effect keyed on `questionCount` keeps the earlier records as a prefix, never lowers the count and never clears the shortlist |
| `Interview.AffirmativeIsContains` | src/components/chatBot.jsx:112 | the `=== "yes"` disjunct is subsumed by `includes("yes")` |
| `Interview.FallbackIsNotAffirmative` | src/components/chatBot.jsx:110-113 | the fallback text does not contain `"yes"` |
| `Interview.MissingVerdictTextNeverShortlists` | src/components/chatBot.jsx:110-116 | a verdict reply without text, or with empty text, never shortlists |
| `Interview.ExchangeTranscript` | src/components/chatBot.jsx:68-69 | one submission adds exactly one record and one count when it completes (non-blank input, answered request), and nothing otherwise |
| `Interview.ExchangeShortlist` | src/components/chatBot.jsx:80-133 | one exchange leaves the candidate shortlisted iff they already were, or the exchange completed, brought the count to at least 3, and the verdict reply's text contains `"yes"`. A blank, thrown or non-`"yes"` exchange never sets the flag |
| `Interview.ExchangeKeepsValid` | src/components/chatBot.jsx:68-74 | one submission keeps `messages.length == questionCount`, allows a shortlist only at count 3 or more, and never clears the shortlist |
| `Interview.RunKeepsValid` | src/components/chatBot.jsx:113 | over any session the invariant holds and the shortlist flag is monotone |
| `Interview.RunTranscript` | src/components/chatBot.jsx:68 | a session's transcript is the starting one followed by the completed exchanges' records, in order (a reference definition) |
| `Interview.RunCount` | src/components/chatBot.jsx:69 | a session's count grows by exactly the number of completed exchanges |
| `Interview.ShortlistNeedsTurnBudget` | src/components/chatBot.jsx:82 | a session from the initial state that ends shortlisted completed at least 3 exchanges |
| `Interview.ThreeExchangeSession` | src/components/chatBot.jsx:46-48 | worked session: greeting, next question and final decision. After the third exchange a `"yes"` verdict shortlists, with three records in order |
| `Text.TrimEmptyIffBlank` | src/components/chatBot.jsx:23 | `input.trim()` is empty exactly when every character is JavaScript whitespace |
| `Text.ContainsIffOccurs` | src/components/chatBot.jsx:112 | `includes` holds exactly when the substring occurs at some index |
| `Proctor.React` | src/components/HRChatbot.jsx:91-100 | exactly one face: in frame, not multiple, deceptions unchanged. Any other count: not in frame, multiple iff more than one, deceptions +1 |
| `Proctor.Mounted` | src/components/HRChatbot.jsx:8-13 | after the mount run with the initial count 0 the deception counter is 1 |
| `Proctor.Observe` | src/components/HRChatbot.jsx:41 | a detector result sets the count and keeps the flags coherent with it. A repeated count changes nothing. The counter never decreases |
| `Proctor.MonitorCountsChangePoints` | src/components/HRChatbot.jsx:91-100 | over any sequence of counts, deceptions grow by the number of change points whose new value is not 1 (a reference definition), and the state ends on the last count |
| `Proctor.SessionDeceptions` | src/components/HRChatbot.jsx:10 | from mount, the deceptions are the deviations among `[0]` followed by the change points from 0 |
| `Proctor.MonitorMonotone` | src/components/HRChatbot.jsx:98 | the deception counter never decreases |
| `Proctor.TickOnce` | src/components/HRChatbot.jsx:105-112 | the updater takes the expiry branch iff `prev <= 0`, and always returns `prev - 1` |
| `Proctor.SessionSamples` | src/components/HRChatbot.jsx:92-98 | `[1,1,0,2,1]` gives 3, `[0,0,0]` gives 1, `[2,2,3]` gives 3 |
| `Proctor.CountdownFrom` | src/components/HRChatbot.jsx:103-116 | from `t >= 0` the clock loses one second per tick. It takes the expiry branch exactly once, on the tick that finds 0, ends on -1 and stops |
| `Proctor.StoppedStays` | src/components/HRChatbot.jsx:107 | a cleared interval never changes the clock and never expires again |
| `Proctor.InterviewClock` | src/components/HRChatbot.jsx:11 | from 600 the clock reads `600 - n` for `n <= 600`, then -1 stopped, and expiry fires exactly once |
| `Proctor.Rem60` | src/components/HRChatbot.jsx:176 | JavaScript `%`: congruent to the dividend modulo 60, and its sign follows the dividend |
| `Proctor.SecondsField` | src/components/HRChatbot.jsx:177 | the seconds field of a non-negative time is two digits that read back as `s mod 60` |
| `Proctor.FormatTime` | src/components/HRChatbot.jsx:174-178 | for `s >= 0` the text ends in a colon and two digits after a non-empty minutes field. For `s < 0` it starts with a minus sign |
| `Proctor.FormatTimeRoundTrip` | src/components/HRChatbot.jsx:174-178 | for `s >= 0` the minutes field is `s div 60` in decimal, and an independent `m:ss` reader gives back `s` |
| `Proctor.FormatStart` | src/components/HRChatbot.jsx:189 | the starting time renders as `10:00` |
| `Proctor.FormatLastSecondOfMinute` | src/components/HRChatbot.jsx:175-177 | 59 seconds renders as `0:59` |
| `Proctor.FormatAfterExpiry` | src/components/HRChatbot.jsx:174-178 | the value the expiry tick leaves, -1, renders as `-1:0-1` |
| `Upload.HandleFile` | src/pages/VerifyDocument.jsx:96-113 | error cleared exactly when type and size pass. A bad type gives the type error first with nothing else changed, an oversize file the size error. On acceptance the file is set and progress reset to 0 |
| `Upload.FileGateBoundary` | src/pages/VerifyDocument.jsx:97-108 | exactly 10 MiB passes, one byte more is too large, and a bad type is reported before the size |
| `Upload.HeldFileAcceptable` | src/pages/VerifyDocument.jsx:96-113 | over any sequence of file choices and approve clicks the form holds no file, or one of an allowed type and at most 10 MiB |
| `Upload.UploadsOnlyAcceptedFiles` | src/pages/VerifyDocument.jsx:148-180 | from the first render, every upload the approve action starts sends a file that passed the gate |
| `Upload.Zoom` | src/pages/VerifyDocument.jsx:140-145 | zoom in is `min(prev + 10, 200)`, zoom out `max(prev - 10, 50)` |
| `Upload.ZoomStaysValid` | src/pages/VerifyDocument.jsx:28 | from 100, any sequence of clicks stays a multiple of ten in [50, 200] |
| `Upload.ZoomInverse` | src/pages/VerifyDocument.jsx:142-143 | away from the bounds zooming in and out undo each other |
| `Upload.ProgressStep` | src/pages/VerifyDocument.jsx:45-51 | the updater adds 5 while below 100. At 100 or more it clears the interval and returns 100 |
| `Upload.BarFrom` | src/pages/VerifyDocument.jsx:44-52 | from `5k` the bar gains 5 per tick up to 100. The tick that finds 100 clears the interval |
| `Upload.BarStopped` | src/pages/VerifyDocument.jsx:47 | a cleared bar never changes |
| `Upload.ProgressFromZero` | src/pages/VerifyDocument.jsx:40-55 | after acceptance the bar reads `min(5n, 100)`, never exceeds 100, and the interval is still scheduled after `n` ticks exactly when `n <= 20`. The 21st run finds 100 and clears it |
| `Upload.DigitRunStartSpec` | src/pages/VerifyDocument.jsx:206 | the `/\d+$/` run is all digits and maximal |
| `Upload.DigitRunStartOf` | src/pages/VerifyDocument.jsx:206 | after a non-digit, a run of digits starts exactly there |
| `Upload.NextDigitsSpec` | src/pages/VerifyDocument.jsx:207-208 | the replacement reads as the run's value + 1 and keeps its width, growing by one only when the run was all nines |
| `Upload.IncrementId` | src/pages/VerifyDocument.jsx:206-209 | the part before the trailing digit run is kept, and the ID never gets shorter |
| `Upload.IncrementIdSpec` | src/pages/VerifyDocument.jsx:206-209 | the ID keeps its prefix, and its trailing run reads one more than before. The length grows only on overflow. An ID without trailing digits is unchanged |
| `Upload.ReplaceRun` | src/pages/VerifyDocument.jsx:206 | putting digits in place of the run leaves the run's start where it was |
| `Upload.IncrementSample` | src/pages/VerifyDocument.jsx:206-209 | prefix plus digit run becomes prefix plus the run's successor |
| `Upload.IncrementFirstId` | src/pages/VerifyDocument.jsx:31 | `DOC-2023-0015` becomes `DOC-2023-0016` |
| `Upload.IncrementPaddedCarry` | src/pages/VerifyDocument.jsx:208 | `DOC-0099` becomes `DOC-0100` |
| `Upload.IncrementOverflow` | src/pages/VerifyDocument.jsx:207-208 | `DOC-99` becomes `DOC-100` |
| `Upload.IncrementWithoutDigits` | src/pages/VerifyDocument.jsx:206 | `DOC-` is unchanged |
| `Upload.Approve` | src/pages/VerifyDocument.jsx:147-221 | the upload is attempted exactly when a file is selected and the user has an email. Without a file, or without an email, only the error status changes. Success clears file, preview, notes, candidate, document type and error, resets progress, keeps the zoom, increments the ID once and reports the old ID. Failure only sets the failure status |
| `Upload.ApproveThenApprove` | src/pages/VerifyDocument.jsx:196-210 | after a success the next approve is blocked until a new file is chosen, and the ID has moved on exactly once |
| `Decimal.ValueOfShow` | src/pages/VerifyDocument.jsx:207 | `parseInt` reads back what `toString` wrote |
| `Decimal.ShowFits` | src/pages/VerifyDocument.jsx:208 | a number's decimal form fits `w` digits exactly when it is below `10^w` |
| `Decimal.ValueOfZeroPad` | src/pages/VerifyDocument.jsx:208 | zero padding keeps a digit string's value |
| `Onboarding.RouteStep` | src/pages/dashboard.jsx:86-90 | the route table maps exactly `/offer-letter` to 1, `/verify-document` to 2 and `/compleated` to 3 |
| `Onboarding.RouteTableMatchesSteps` | src/pages/dashboard.jsx:14-18 | each initial step's path maps to that step's own value |
| `Onboarding.MarkStep` | src/pages/dashboard.jsx:49-62 | a step is completed iff its value is below the current one and active iff equal. Name, value and path are kept |
| `Onboarding.MarkSteps` | src/pages/dashboard.jsx:49-62 | the `map` keeps the number and order of steps and re-marks each one by the current step value |
| `Onboarding.Navigate` | src/pages/dashboard.jsx:41-64 | an unmapped path changes nothing. A mapped one sets `Progress` to the step value and re-marks every step |
| `Onboarding.MarkStepsShape` | src/pages/dashboard.jsx:49-62 | on ordered steps containing the current value, exactly one step is active and the completed steps form a prefix |
| `Onboarding.NavigateShape` | src/pages/dashboard.jsx:45-62 | on any tracker holding the initial steps, whatever their flags, a mapped route leaves one active step, a completed prefix, the steps' names, values and paths, and `Progress` equal to the step value |
| `Onboarding.VisitKeepsSettled` | src/pages/dashboard.jsx:41-64 | over any sequence of visited paths the tracker keeps its steps, and once `Progress` is set exactly one step is active after a completed prefix |
| `Onboarding.SessionSettled` | src/pages/dashboard.jsx:13-18 | from the first render (`Progress` unset, all flags false) every browsing history leaves the tracker settled |
| `Onboarding.NavigateIdempotent` | src/pages/dashboard.jsx:93-98 | visiting the same route twice is visiting it once |
| `Onboarding.NavigateForgetsFlags` | src/pages/dashboard.jsx:52-60 | the flags after a mapped route do not depend on the flags before it |
| `Onboarding.StatusColor` | src/pages/dashboard.jsx:68-75 | green exactly for `signed`, yellow for `pending`, red for `missing`, gray otherwise, all after lower-casing |
| `Onboarding.StatusColorIgnoresCase` | src/pages/dashboard.jsx:69 | statuses equal up to letter case get the same colour |
| `Onboarding.SignedIsGreen` | src/pages/dashboard.jsx:34 | `getStatusColor("Signed")` is green |
| `Onboarding.PendingIsYellow` | src/pages/dashboard.jsx:35 | `getStatusColor("Pending")` is yellow |
| `Onboarding.MissingIsRed` | src/pages/dashboard.jsx:36 | `getStatusColor("Missing")` is red |

## Left out

- The generator's HTTP requests, the prompt wording and JSON parsing (`chatBot.jsx` lines 27-64 and 84-109). They are external. Each request is an abstract outcome: a throw, or an answer whose text may be absent.
- Interview.Submit: overlapping requests and the `isLoading` flag are not modelled. A second request can start before the first one settles in three ways. The Enter key ignores `isLoading`. The voice path ignores it too. `checkQuestionLimit` never sets `isLoading`, so the send button stays enabled while the verdict request is in flight, and its `finally` (lines 126-127) clears the flag while a submission may still be pending. This is asynchronous concurrency. Each submission is modelled as settling before the next, and each verdict before the following submission. That order is sound for the verdict: `Interview.VerdictCommutesWithSubmit` shows the two requests write different fields, apart from the unrendered `generatedAnswer`.
- Speech recognition and synthesis, `alert` and `window.close` are browser I/O. The `alert` on a negative verdict has no state effect.
- MediaPipe face detection and the camera are a foreign library. Only the integer face count of each frame enters the model.
- The commented-out focus/developer-tools cheating check in `HRChatbot.jsx` is dead code.
- `getStatusColor` has no live caller. Its only calls (`dashboard.jsx` lines 220, 232 and 244) sit in the commented-out block at lines 172-250, so the dashboard renders no status colour. The function is modelled as written.
- `HRChatbot.jsx`'s own `messages`, `userInput`, `questionCount` and `isCheating` states are not modelled, because its core logic does not change them.
- Upload.Approve: the progress reported by axios during the request, the transient `'Uploading document...'` status and `isUploading` are left out. Axios progress is a rounded float percentage from the network. The failure branch is therefore stated with the progress value from before the request.
- Upload.Approve: the failure message is one abstract string standing for `error.response?.data?.message || error.message`.
- The `FileReader` preview, fullscreen, the download link and drag highlighting are DOM manipulation with no rule of their own.
- Upload.NextDigitsSpec: `parseInt` is modelled on unbounded integers. Rounding above 2^53 and `toString`'s exponent form for very long digit runs are not modelled.
- Onboarding.StatusColor: `toLowerCase` is modelled for ASCII letters only. Full Unicode case mapping is a large table outside the rule's concern.
- Onboarding.RouteStep: the table is modelled as a plain map. Keys inherited from `Object.prototype`, such as `constructor`, do not begin with `/`, so no location path can reach them.
- The second location effect of `dashboard.jsx` (lines 93-98) sets `Progress` to the same value as the first, so `Navigate` models both together.
- `OfferLater.jsx`, `compleated.jsx`, `landingPage.jsx` and `App.jsx` are not part of this model. They hold PDF rendering, static content, animation and a route table with no logic of their own.

=== FILE: decimal.dfy ===
/**
 * Decimal digit strings: JavaScript's `Number.prototype.toString()` on
 * integers, `parseInt` on a run of ASCII digits, and `padStart`.
 */
module Decimal {

  /** The regular-expression class `\d`: ASCII digits only. */
  predicate IsDigit(c: char) {
    '0' <= c <= '9'
  }

  predicate AllDigits(s: string) {
    forall i :: 0 <= i < |s| ==> IsDigit(s[i])
  }

  function DigitValue(c: char): (d: nat)
    requires IsDigit(c)
    ensures d < 10
  {
    c as int - '0' as int
  }

  function DigitChar(d: nat): (c: char)
    requires d < 10
    ensures IsDigit(c) && DigitValue(c) == d
  {
    ('0' as int + d) as char
  }

  function Pow10(n: nat): (p: nat)
    ensures p >= 1
  {
    if n == 0 then 1 else 10 * Pow10(n - 1)
  }

  /**
   * `parseInt(s)` for a non-empty string of digits, leading zeros allowed.
   * The empty string reads as 0 here only as the base of the recursion:
   * JavaScript gives `NaN` for it, but a `/\d+$/` match is never empty.
   */
  function Value(s: string): (v: nat)
    requires AllDigits(s)
  {
    if |s| == 0 then 0 else Value(s[..|s| - 1]) * 10 + DigitValue(s[|s| - 1])
  }

  /** `n.toString()` for a non-negative integer: shortest digit string, no leading zero. */
  function Show(n: nat): (r: string)
    ensures |r| >= 1 && AllDigits(r)
    ensures |r| > 1 ==> r[0] != '0'
  {
    if n < 10 then [DigitChar(n)] else Show(n / 10) + [DigitChar(n % 10)]
  }

  /** `i.toString()` for any integer: a minus sign before the magnitude. */
  function ShowInt(i: int): (r: string)
    ensures i >= 0 ==> r == Show(i)
    ensures i < 0 ==> r == "-" + Show(-i)
  {
    if i < 0 then "-" + Show(-i) else Show(i)
  }

  /** `s.padStart(width, c)`: `c` repeated on the left up to `width` characters. */
  function PadStart(s: string, width: nat, c: char): string {
    if |s| >= width then s else seq(width - |s|, _ => c) + s
  }

  /**
   * The padded length: `width`, or the string's own length when that is already longer.
   * This is the quantifier-free part of `PadStartSpec`, kept apart so that callers
   * needing only the length do not bring the quantified ensures into scope.
   */
  lemma PadStartLength(s: string, width: nat, c: char)
    ensures |PadStart(s, width, c)| == if |s| >= width then |s| else width
  {
  }

  /** The padded string is `s` behind enough copies of `c` to reach `width`, if it was shorter. */
  lemma PadStartSpec(s: string, width: nat, c: char)
    ensures |PadStart(s, width, c)| == if |s| >= width then |s| else width
    ensures PadStart(s, width, c)[|PadStart(s, width, c)| - |s|..] == s
    ensures forall i :: 0 <= i < |PadStart(s, width, c)| - |s| ==> PadStart(s, width, c)[i] == c
  {
  }

  /** A value read from `k` digits is below `10^k`. */
  lemma {:induction false} ValueBound(s: string)
    requires AllDigits(s)
    ensures Value(s) < Pow10(|s|)
  {
    if |s| > 0 {
      ValueBound(s[..|s| - 1]);
    }
  }

  /** Reading `toString` back gives the number: `parseInt(n.toString()) == n`. */
  lemma {:induction false} ValueOfShow(n: nat)
    ensures Value(Show(n)) == n
  {
    if n >= 10 {
      var r := Show(n);
      assert r[..|r| - 1] == Show(n / 10);
      ValueOfShow(n / 10);
    }
  }

  /** Reading a concatenation: the left part is shifted by the right part's width. */
  lemma {:induction false} ValueAppend(a: string, b: string)
    requires AllDigits(a) && AllDigits(b)
    ensures AllDigits(a + b)
    ensures Value(a + b) == Value(a) * Pow10(|b|) + Value(b)
    decreases |b|
  {
    if |b| == 0 {
      assert a + b == a;
    } else {
      var b' := b[..|b| - 1];
      var d := DigitValue(b[|b| - 1]);
      assert (a + b)[..|a + b| - 1] == a + b';
      assert (a + b)[|a + b| - 1] == b[|b| - 1];
      ValueAppend(a, b');
      var x, p, y := Value(a), Pow10(|b'|), Value(b');
      assert Value(a + b) == (x * p + y) * 10 + d;
      assert Pow10(|b|) == 10 * p;
      assert Value(b) == y * 10 + d;
      MulShift(x, p, y, d);
    }
  }

  /** `(x p + y) 10 + d == x (10 p) + (10 y + d)`. */
  lemma MulShift(x: int, p: int, y: int, d: int)
    ensures (x * p + y) * 10 + d == x * (10 * p) + (y * 10 + d)
  {
  }

  /** A string of zeros reads as 0. */
  lemma {:induction false} ValueOfZeros(k: nat)
    ensures AllDigits(seq(k, _ => '0'))
    ensures Value(seq(k, _ => '0')) == 0
  {
    if k > 0 {
      assert seq(k, _ => '0')[..k - 1] == seq(k - 1, _ => '0');
      ValueOfZeros(k - 1);
    }
  }

  /** Left-padding with zeros keeps the value. */
  lemma ValueOfZeroPad(s: string, width: nat)
    requires AllDigits(s)
    ensures AllDigits(PadStart(s, width, '0'))
    ensures Value(PadStart(s, width, '0')) == Value(s)
  {
    PadStartSpec(s, width, '0');
    if |s| < width {
      ValueOfZeros(width - |s|);
      ValueAppend(seq(width - |s|, _ => '0'), s);
    }
  }

  /** `toString` fits in `w` characters exactly when the number is below `10^w`. */
  lemma {:induction false} ShowFits(n: nat, w: nat)
    requires w >= 1
    ensures |Show(n)| <= w <==> n < Pow10(w)
  {
    if n >= 10 {
      if w == 1 {
        assert Pow10(1) == 10;
      } else {
        ShowFits(n / 10, w - 1);
      }
    } else {
      assert Pow10(w) >= 10 by { PowGrows(w); }
    }
  }

  lemma {:induction false} PowGrows(w: nat)
    requires w >= 1
    ensures Pow10(w) >= 10
  {
    if w > 1 {
      PowGrows(w - 1);
    }
  }
}

=== FILE: interview.dfy ===
/**
 * The interview dialogue of `ChatBot`: a turn counter and an append-only
 * transcript driven by an external text generator, and the shortlist
 * verdict requested once the turn budget is spent.
 *
 * The generator is abstract: each request either throws or answers with a
 * payload whose text field may be missing.
 */
module Interview {
  import opened Options
  import opened Text

  /** Number of ordinary questions before the final decision. */
  const QuestionLimit: nat := 2

  /** Bot text used when a reply carries no (or empty) text. */
  const Fallback: string := "Sorry, I couldn't generate an answer."

  /** `generatedAnswer` after a thrown request; the component stores it but never renders it. */
  const RetryNotice: string := "Sorry, I couldn't generate an answer. Please try again."

  /** The token that makes a verdict reply a shortlist. */
  const Affirmative: string := "yes"

  /** One `{user, bot}` record of the transcript. */
  datatype Turn = Turn(user: string, bot: string)

  /** The dialogue state of the component. */
  datatype Chat = Chat(
    messages: seq<Turn>,
    questionCount: nat,
    shortlisted: bool,
    generatedAnswer: string)

  /** Result of one generation request: a thrown error, or a payload whose text may be absent. */
  datatype Outcome = Threw | Answered(text: Option<string>)

  /** The turn-aware instruction appended to the prompt. */
  datatype Instruction = Greeting | NextQuestion | FinalDecision

  /** Whether a submission reached the generator, and the state it left. */
  datatype Submission = Ignored | Sent(instruction: Instruction, next: Chat)

  /** Whether the verdict effect issued its request, and the state it left. */
  datatype VerdictStep = Skipped | Requested(after: Chat)

  /** One user submission together with the outcomes of the requests it triggers. */
  datatype Event = Event(input: string, reply: Outcome, verdict: Outcome)

  const Initial: Chat := Chat([], 0, false, "")

  /** The transcript and the counter move together. */
  predicate Consistent(s: Chat) {
    |s.messages| == s.questionCount
  }

  /** Consistency, and a shortlist only once the verdict became due. */
  predicate Valid(s: Chat) {
    Consistent(s) && (s.shortlisted ==> s.questionCount >= QuestionLimit + 1)
  }

  /** Exactly one of the three instructions, chosen by the turn count. */
  function Instruct(questionCount: nat): (i: Instruction)
    ensures i == Greeting <==> questionCount == 0
    ensures i == FinalDecision <==> questionCount >= QuestionLimit
    ensures i == NextQuestion <==> 0 < questionCount < QuestionLimit
  {
    if questionCount == 0 then Greeting
    else if questionCount >= QuestionLimit then FinalDecision
    else NextQuestion
  }

  /** `text || Fallback`: the empty string is falsy too. */
  function ReplyText(text: Option<string>): (r: string)
    ensures r != []
    ensures text.Some? && text.value != [] ==> r == text.value
    ensures text.None? || text.value == [] ==> r == Fallback
  {
    if text.Some? && text.value != [] then text.value else Fallback
  }

  /** `fetchChatbotResponse(input)` with the generator answering `outcome`. */
  function Submit(s: Chat, input: string, outcome: Outcome): (r: Submission)
    ensures r.Ignored? <==> IsBlank(input)
    ensures r.Sent? ==> r.instruction == Instruct(s.questionCount)
    ensures r.Sent? ==> r.next.shortlisted == s.shortlisted
    ensures r.Sent? && outcome.Threw? ==>
      && r.next.messages == s.messages
      && r.next.questionCount == s.questionCount
      && r.next.generatedAnswer == RetryNotice
    ensures r.Sent? && outcome.Answered? ==>
      && |r.next.messages| == |s.messages| + 1
      && r.next.messages[..|s.messages|] == s.messages
      && r.next.messages[|s.messages|] == Turn(input, ReplyText(outcome.text))
      && r.next.questionCount == s.questionCount + 1
      && r.next.generatedAnswer == ReplyText(outcome.text)
  {
    TrimEmptyIffBlank(input);
    if Trim(input) == [] then Ignored
    else
      var instruction := Instruct(s.questionCount);
      match outcome
      case Threw => Sent(instruction, s.(generatedAnswer := RetryNotice))
      case Answered(text) =>
        var answer := ReplyText(text);
        Sent(instruction, s.(messages := s.messages + [Turn(input, answer)],
                             questionCount := s.questionCount + 1,
                             generatedAnswer := answer))
  }

  /** The verdict is due once the count passes the limit by one. */
  predicate VerdictDue(questionCount: nat) {
    questionCount >= QuestionLimit + 1
  }

  /** The shortlist test as written: equal to, or containing, the token. */
  predicate IsAffirmative(answer: string) {
    answer == Affirmative || Contains(answer, Affirmative)
  }

  /** `checkQuestionLimit`, run with the generator answering `outcome`. */
  function CheckQuestionLimit(s: Chat, outcome: Outcome): (r: VerdictStep)
    ensures r.Requested? <==> VerdictDue(s.questionCount)
    ensures r.Requested? ==> r.after.messages == s.messages && r.after.questionCount == s.questionCount
    ensures r.Requested? ==> (r.after.shortlisted <==>
      s.shortlisted || (outcome.Answered? && Contains(ReplyText(outcome.text), Affirmative)))
    ensures r.Requested? && outcome.Answered? ==> r.after.generatedAnswer == s.generatedAnswer
    ensures r.Requested? && outcome.Threw? ==> r.after.generatedAnswer == RetryNotice
  {
    if !VerdictDue(s.questionCount) then Skipped
    else
      match outcome
      case Threw => Requested(s.(generatedAnswer := RetryNotice))
      case Answered(text) =>
        var answer := ReplyText(text);
        if IsAffirmative(answer) then Requested(s.(shortlisted := true))
        else Requested(s)
  }

  /**
   * A verdict request in flight while the candidate submits again settles the
   * same way in either order: the two requests write different fields, apart
   * from `generatedAnswer`, which the component never renders.
   */
  lemma VerdictCommutesWithSubmit(s: Chat, input: string, reply: Outcome, verdict: Outcome)
    requires VerdictDue(s.questionCount) && !IsBlank(input)
    ensures
      var verdictFirst := Submit(CheckQuestionLimit(s, verdict).after, input, reply).next;
      var submitFirst := CheckQuestionLimit(Submit(s, input, reply).next, verdict).after;
      && verdictFirst.messages == submitFirst.messages
      && verdictFirst.questionCount == submitFirst.questionCount
      && verdictFirst.shortlisted == submitFirst.shortlisted
  {
  }

  /**
   * One submission followed by the effect keyed on `questionCount`: the
   * verdict effect runs only when the count actually changed.
   */
  function Exchange(s: Chat, e: Event): (r: Chat)
    ensures |r.messages| >= |s.messages| && r.messages[..|s.messages|] == s.messages
    ensures r.questionCount >= s.questionCount
    ensures s.shortlisted ==> r.shortlisted
  {
    match Submit(s, e.input, e.reply)
    case Ignored => s
    case Sent(_, next) =>
      if next.questionCount == s.questionCount then next
      else
        match CheckQuestionLimit(next, e.verdict)
        case Skipped => next
        case Requested(after) => after
  }

  /** A session: the events applied in order. */
  function Run(s: Chat, events: seq<Event>): Chat
    decreases |events|
  {
    if |events| == 0 then s else Run(Exchange(s, events[0]), events[1..])
  }

  /** An event that completes an exchange: non-blank input and an answered request. */
  predicate Completes(e: Event) {
    !IsBlank(e.input) && e.reply.Answered?
  }

  /** The record an event contributes to the transcript: one if it completes, none otherwise. */
  function Head(e: Event): seq<Turn> {
    if Completes(e) then [Turn(e.input, ReplyText(e.reply.text))] else []
  }

  /** Reference transcript: the records of the completing events, in order. */
  function CompletedTurns(events: seq<Event>): seq<Turn>
    decreases |events|
  {
    if |events| == 0 then [] else Head(events[0]) + CompletedTurns(events[1..])
  }

  /** The `=== "yes"` disjunct adds nothing to `includes("yes")`. */
  lemma AffirmativeIsContains(answer: string)
    ensures IsAffirmative(answer) <==> Contains(answer, Affirmative)
  {
    if answer == Affirmative {
      assert StartsWith(answer, Affirmative);
    }
  }

  /** The token does not occur anywhere in the fallback text. */
  lemma NoAffirmativeInFallback(i: int)
    ensures !OccursAt(Fallback, Affirmative, i)
  {
    assert |Fallback| == 37;
    assert forall j :: 0 <= j < 4 ==> Fallback[j] != 'y';
    assert forall j :: 5 <= j < 13 ==> Fallback[j] != 'y';
    assert forall j :: 13 <= j < 21 ==> Fallback[j] != 'y';
    assert forall j :: 21 <= j < 29 ==> Fallback[j] != 'y';
    assert forall j :: 29 <= j < 37 ==> Fallback[j] != 'y';
    if 0 <= i && i + 3 <= |Fallback| {
      if i == 4 {
        assert Fallback[i..i + 3][1] == Fallback[5] == ',';
      } else {
        assert Fallback[i..i + 3][0] == Fallback[i] != 'y';
      }
    }
  }

  /** The fallback text never reads as a shortlist. */
  lemma FallbackIsNotAffirmative()
    ensures !IsAffirmative(Fallback)
  {
    forall i ensures !OccursAt(Fallback, Affirmative, i) {
      NoAffirmativeInFallback(i);
    }
    ContainsIffOccurs(Fallback, Affirmative);
    AffirmativeIsContains(Fallback);
  }

  /** A verdict reply without text leaves the shortlist flag as it was. */
  lemma MissingVerdictTextNeverShortlists(s: Chat, text: Option<string>)
    requires text.None? || text.value == []
    ensures CheckQuestionLimit(s, Answered(text)).Requested? ==>
      CheckQuestionLimit(s, Answered(text)).after.shortlisted == s.shortlisted
  {
    FallbackIsNotAffirmative();
    AffirmativeIsContains(Fallback);
  }

  /** One exchange appends the completed record, if any, and counts it. */
  lemma ExchangeTranscript(s: Chat, e: Event)
    ensures Exchange(s, e).questionCount == s.questionCount + (if Completes(e) then 1 else 0)
    ensures Exchange(s, e).messages == s.messages + Head(e)
  {
    var r := Submit(s, e.input, e.reply);
    if r.Sent? && e.reply.Answered? {
      assert r.next.messages == r.next.messages[..|s.messages|] + [r.next.messages[|s.messages|]];
    }
  }

  /**
   * One exchange shortlists exactly when the candidate already was, or the
   * exchange completed, brought the count to the verdict threshold, and the
   * verdict reply contains the token.
   */
  lemma ExchangeShortlist(s: Chat, e: Event)
    ensures Exchange(s, e).shortlisted <==>
      s.shortlisted
      || (Completes(e) && VerdictDue(s.questionCount + 1) && e.verdict.Answered?
          && Contains(ReplyText(e.verdict.text), Affirmative))
  {
    if Completes(e) && e.verdict.Answered? {
      AffirmativeIsContains(ReplyText(e.verdict.text));
    }
  }

  /** One exchange keeps the state valid, and never clears the shortlist. */
  lemma ExchangeKeepsValid(s: Chat, e: Event)
    requires Valid(s)
    ensures Valid(Exchange(s, e))
    ensures s.shortlisted ==> Exchange(s, e).shortlisted
  {
    ExchangeTranscript(s, e);
  }

  /** Over a whole session the state stays valid and the shortlist is never withdrawn. */
  lemma {:induction false} RunKeepsValid(s: Chat, events: seq<Event>)
    requires Valid(s)
    ensures Valid(Run(s, events))
    ensures s.shortlisted ==> Run(s, events).shortlisted
    decreases |events|
  {
    if |events| > 0 {
      var t := Exchange(s, events[0]);
      assert Run(s, events) == Run(t, events[1..]);
      ExchangeKeepsValid(s, events[0]);
      RunKeepsValid(t, events[1..]);
    }
  }

  /** Over a whole session the transcript grows by exactly the completed exchanges, in order. */
  lemma {:induction false} RunTranscript(s: Chat, events: seq<Event>)
    ensures Run(s, events).messages == s.messages + CompletedTurns(events)
    decreases |events|
  {
    if |events| > 0 {
      var t := Exchange(s, events[0]);
      RunTranscript(t, events[1..]);
      assert Run(s, events) == Run(t, events[1..]);
      ExchangeTranscript(s, events[0]);
      assert s.messages + CompletedTurns(events)
          == (s.messages + Head(events[0])) + CompletedTurns(events[1..]);
    }
  }

  /** Over a whole session the counter grows by exactly the number of completed exchanges. */
  lemma {:induction false} RunCount(s: Chat, events: seq<Event>)
    ensures Run(s, events).questionCount == s.questionCount + |CompletedTurns(events)|
    decreases |events|
  {
    if |events| > 0 {
      var t := Exchange(s, events[0]);
      assert Run(s, events) == Run(t, events[1..]);
      ExchangeTranscript(s, events[0]);
      RunCount(t, events[1..]);
    }
  }

  /** A session that ends shortlisted sent at least `QuestionLimit + 1` completed exchanges. */
  lemma ShortlistNeedsTurnBudget(events: seq<Event>)
    requires Run(Initial, events).shortlisted
    ensures |CompletedTurns(events)| >= QuestionLimit + 1
  {
    RunKeepsValid(Initial, events);
    RunCount(Initial, events);
  }

  /** The three-exchange walk-through: greeting, next question, final decision, then the verdict. */
  lemma ThreeExchangeSession(a: string, b: string, c: string)
    requires !IsBlank(a) && !IsBlank(b) && !IsBlank(c)
    ensures
      var e1 := Event(a, Answered(Some("Q1")), Threw);
      var e2 := Event(b, Answered(Some("Q2")), Threw);
      var e3 := Event(c, Answered(Some("Decision")), Answered(Some("yes")));
      var s1 := Exchange(Initial, e1);
      var s2 := Exchange(s1, e2);
      var s3 := Exchange(s2, e3);
      && Submit(Initial, a, e1.reply).instruction == Greeting
      && s1.questionCount == 1 && !s1.shortlisted
      && Submit(s1, b, e2.reply).instruction == NextQuestion
      && s2.questionCount == 2 && !s2.shortlisted
      && Submit(s2, c, e3.reply).instruction == FinalDecision
      && s3.questionCount == 3 && s3.shortlisted
      && s3.messages == [Turn(a, "Q1"), Turn(b, "Q2"), Turn(c, "Decision")]
  {
    assert StartsWith("yes", Affirmative);
  }
}

=== FILE: onboarding.dfy ===
/**
 * The onboarding dashboard: the route-to-step table, the step flags set on
 * each navigation, and the document-status colour lookup.
 */
module Onboarding {
  import opened Options
  import opened Text

  /** One entry of the step tracker. */
  datatype Step = Step(name: string, completed: bool, active: bool, value: nat, path: string)

  /** The dashboard's state: `Progress` (`''` until a mapped route is seen) and the steps. */
  datatype Dashboard = Dashboard(progress: Option<nat>, steps: seq<Step>)

  const InitialSteps: seq<Step> := [
    Step("Offer Letter", false, false, 1, "/offer-letter"),
    Step("Verification", false, false, 2, "/verify-document"),
    Step("Complete", false, false, 3, "/compleated")
  ]

  const InitialDashboard: Dashboard := Dashboard(None, InitialSteps)

  const RouteSteps: map<string, nat> := map[
    "/offer-letter" := 1,
    "/verify-document" := 2,
    "/compleated" := 3
  ]

  /** `routeStepMap[path]`: the step a route belongs to, if any. */
  function RouteStep(path: string): (r: Option<nat>)
    ensures r == Some(1) <==> path == "/offer-letter"
    ensures r == Some(2) <==> path == "/verify-document"
    ensures r == Some(3) <==> path == "/compleated"
    ensures r.Some? ==> 1 <= r.value <= 3
  {
    if path in RouteSteps then Some(RouteSteps[path]) else None
  }

  /** The route table and the step table name the same paths for the same steps. */
  lemma RouteTableMatchesSteps()
    ensures forall i :: 0 <= i < |InitialSteps| ==>
      RouteStep(InitialSteps[i].path) == Some(InitialSteps[i].value)
  {
  }

  /** One step's flags for the current step `v`; name, value and path are kept. */
  function MarkStep(step: Step, v: nat): (r: Step)
    ensures r.name == step.name && r.value == step.value && r.path == step.path
    ensures r.completed <==> step.value < v
    ensures r.active <==> step.value == v
  {
    if step.value < v then step.(completed := true, active := false)
    else if step.value == v then step.(active := true, completed := false)
    else step.(active := false, completed := false)
  }

  /** The `prevSteps.map(...)` of the location effect. */
  function MarkSteps(steps: seq<Step>, v: nat): (r: seq<Step>)
    ensures |r| == |steps|
    ensures forall i :: 0 <= i < |steps| ==> r[i] == MarkStep(steps[i], v)
  {
    seq(|steps|, i requires 0 <= i < |steps| => MarkStep(steps[i], v))
  }

  /** The location effects: a mapped (truthy) step value sets `Progress` and the flags. */
  function Navigate(d: Dashboard, path: string): (r: Dashboard)
    ensures RouteStep(path).None? ==> r == d
    ensures RouteStep(path).Some? ==>
      r.progress == RouteStep(path) && r.steps == MarkSteps(d.steps, RouteStep(path).value)
  {
    match RouteStep(path)
    case None => d
    case Some(v) =>
      if v == 0 then d else Dashboard(Some(v), MarkSteps(d.steps, v))
  }

  /** Step values strictly increase along the list. */
  predicate Ordered(steps: seq<Step>) {
    forall i, j :: 0 <= i < j < |steps| ==> steps[i].value < steps[j].value
  }

  /** Exactly one step is active. */
  predicate OneActive(steps: seq<Step>) {
    && (exists i :: 0 <= i < |steps| && steps[i].active)
    && (forall i, j :: 0 <= i < |steps| && 0 <= j < |steps| && steps[i].active && steps[j].active ==> i == j)
  }

  /** The completed steps form a prefix, and an active step follows it directly. */
  predicate CompletedPrefix(steps: seq<Step>) {
    && (forall i, j :: 0 <= i < j < |steps| && steps[j].completed ==> steps[i].completed && !steps[i].active)
    && (forall j :: 0 <= j < |steps| && steps[j].active ==>
          !steps[j].completed && forall i :: 0 <= i < j ==> steps[i].completed)
  }

  /**
   * On an ordered step list that contains the current step, marking leaves
   * exactly one step active and the completed steps as a prefix.
   */
  lemma MarkStepsShape(steps: seq<Step>, v: nat)
    requires Ordered(steps)
    requires exists i :: 0 <= i < |steps| && steps[i].value == v
    ensures OneActive(MarkSteps(steps, v))
    ensures CompletedPrefix(MarkSteps(steps, v))
  {
    var r := MarkSteps(steps, v);
    var k :| 0 <= k < |steps| && steps[k].value == v;
    assert r[k].active;
  }

  /** The steps carry the initial tracker's names, values and paths, whatever their flags. */
  predicate Tracks(steps: seq<Step>) {
    && |steps| == |InitialSteps|
    && forall i :: 0 <= i < |steps| ==>
      && steps[i].name == InitialSteps[i].name
      && steps[i].value == InitialSteps[i].value
      && steps[i].path == InitialSteps[i].path
  }

  /**
   * Every mapped route leaves a tracker of the initial steps with one active
   * step, a completed prefix and `Progress` equal to the step value,
   * whatever flags it had before.
   */
  lemma NavigateShape(d: Dashboard, path: string)
    requires Tracks(d.steps)
    requires RouteStep(path).Some?
    ensures Tracks(Navigate(d, path).steps)
    ensures OneActive(Navigate(d, path).steps)
    ensures CompletedPrefix(Navigate(d, path).steps)
    ensures Navigate(d, path).progress == RouteStep(path)
  {
    var v := RouteStep(path).value;
    NavigateForgetsFlags(d, Dashboard(d.progress, InitialSteps), path);
    assert InitialSteps[v - 1].value == v;
    MarkStepsShape(InitialSteps, v);
  }

  /** The location effects over a sequence of visited paths. */
  function Visit(d: Dashboard, paths: seq<string>): Dashboard
    decreases |paths|
  {
    if |paths| == 0 then d else Visit(Navigate(d, paths[0]), paths[1..])
  }

  /** The tracker keeps its steps, and once `Progress` is set exactly one step is active after a completed prefix. */
  predicate Settled(d: Dashboard) {
    && Tracks(d.steps)
    && (d.progress.Some? ==> OneActive(d.steps) && CompletedPrefix(d.steps))
  }

  /** Any sequence of visited paths keeps the tracker settled. */
  lemma {:induction false} VisitKeepsSettled(d: Dashboard, paths: seq<string>)
    requires Settled(d)
    ensures Settled(Visit(d, paths))
    decreases |paths|
  {
    if |paths| > 0 {
      if RouteStep(paths[0]).Some? {
        NavigateShape(d, paths[0]);
      }
      VisitKeepsSettled(Navigate(d, paths[0]), paths[1..]);
    }
  }

  /** From the dashboard's first render, every browsing history leaves the tracker settled. */
  lemma SessionSettled(paths: seq<string>)
    ensures Settled(Visit(InitialDashboard, paths))
  {
    VisitKeepsSettled(InitialDashboard, paths);
  }

  /** Visiting the same route twice is the same as visiting it once. */
  lemma NavigateIdempotent(d: Dashboard, path: string)
    ensures Navigate(Navigate(d, path), path) == Navigate(d, path)
  {
  }

  /** The flags after a navigation do not depend on the flags before it. */
  lemma NavigateForgetsFlags(d: Dashboard, e: Dashboard, path: string)
    requires RouteStep(path).Some?
    requires |d.steps| == |e.steps|
    requires forall i :: 0 <= i < |d.steps| ==>
      d.steps[i].name == e.steps[i].name && d.steps[i].value == e.steps[i].value
      && d.steps[i].path == e.steps[i].path
    ensures Navigate(d, path) == Navigate(e, path)
  {
  }

  const GreenClass: string := "bg-green-500"
  const YellowClass: string := "bg-yellow-500"
  const RedClass: string := "bg-red-500"
  const GrayClass: string := "bg-gray-300"

  /** `getStatusColor`: a switch on the lower-cased status. */
  function StatusColor(status: string): (r: string)
    ensures r == GreenClass <==> Lower(status) == "signed"
    ensures r == YellowClass <==> Lower(status) == "pending"
    ensures r == RedClass <==> Lower(status) == "missing"
    ensures r == GrayClass <==> Lower(status) !in {"signed", "pending", "missing"}
  {
    var key := Lower(status);
    if key == "signed" then GreenClass
    else if key == "pending" then YellowClass
    else if key == "missing" then RedClass
    else GrayClass
  }

  /** Statuses that differ only in ASCII letter case get the same colour. */
  lemma StatusColorIgnoresCase(a: string, b: string)
    requires Lower(a) == Lower(b)
    ensures StatusColor(a) == StatusColor(b)
  {
  }

  /** `getStatusColor` on the statuses as capitalised in the dashboard's data (its calls are commented out). */
  lemma SignedIsGreen()
    ensures StatusColor("Signed") == GreenClass
  {
    assert Lower("Signed") == "signed";
  }

  lemma PendingIsYellow()
    ensures StatusColor("Pending") == YellowClass
  {
    assert Lower("Pending") == "pending";
  }

  lemma MissingIsRed()
    ensures StatusColor("Missing") == RedClass
  {
    assert Lower("Missing") == "missing";
  }

}

=== FILE: options.dfy ===
/** Optional values: JavaScript's `undefined`/`null`/missing-field cases. */
module Options {

  datatype Option<+T> = None | Some(value: T)
}

=== FILE: proctor.dfy ===
/**
 * The proctoring panel of `HRChatbot`: the presence/deception reducer fed
 * by the face count, the per-second countdown, and the `m:ss` rendering of
 * the time left.
 *
 * Face detection is external; only the integer face count of each
 * processed frame enters the model.
 */
module Proctor {
  import opened Options
  import opened Decimal

  /** Length of the interview, in seconds. */
  const InterviewSeconds: int := 600

  /** The presence fields of the component, with the face count that drives them. */
  datatype Presence = Presence(
    facesDetected: nat,
    isUserInFrame: bool,
    multipleFacesDetected: bool,
    deceptionAttempts: nat)

  /** The `useState` initial values, before any effect has run. */
  const Unmounted: Presence := Presence(0, false, false, 0)

  /** The flags agree with the face count. */
  predicate Coherent(p: Presence) {
    && (p.isUserInFrame <==> p.facesDetected == 1)
    && (p.multipleFacesDetected <==> p.facesDetected > 1)
  }

  /** The effect keyed on `facesDetected`, run once for the current count. */
  function React(p: Presence): (r: Presence)
    ensures r.facesDetected == p.facesDetected
    ensures Coherent(r)
    ensures p.facesDetected == 1 ==> r.deceptionAttempts == p.deceptionAttempts
    ensures p.facesDetected != 1 ==> r.deceptionAttempts == p.deceptionAttempts + 1
  {
    if p.facesDetected == 1 then
      p.(isUserInFrame := true, multipleFacesDetected := false)
    else
      p.(isUserInFrame := false,
         multipleFacesDetected := p.facesDetected > 1,
         deceptionAttempts := p.deceptionAttempts + 1)
  }

  /** The state after mounting: the effect has run once with the initial count 0. */
  function Mounted(): (r: Presence)
    ensures Coherent(r) && r.facesDetected == 0 && r.deceptionAttempts == 1
  {
    React(Unmounted)
  }

  /**
   * One detector result `n`: `setFacesDetected(n)`. An unchanged count
   * schedules no render, so the effect runs only on a change.
   */
  function Observe(p: Presence, n: nat): (r: Presence)
    requires Coherent(p)
    ensures Coherent(r) && r.facesDetected == n
    ensures r.deceptionAttempts >= p.deceptionAttempts
    ensures n == p.facesDetected ==> r == p
  {
    if n == p.facesDetected then p else React(p.(facesDetected := n))
  }

  /** Detector results applied in order. */
  function Monitor(p: Presence, counts: seq<nat>): Presence
    requires Coherent(p)
    decreases |counts|
  {
    if |counts| == 0 then p else Monitor(Observe(p, counts[0]), counts[1..])
  }

  /** Reference: the counts at which the value differs from the one before (`prev` first). */
  function ChangePoints(prev: nat, counts: seq<nat>): seq<nat>
    decreases |counts|
  {
    if |counts| == 0 then []
    else if counts[0] == prev then ChangePoints(prev, counts[1..])
    else [counts[0]] + ChangePoints(counts[0], counts[1..])
  }

  /** Reference: how many values differ from exactly one face. */
  function Deviations(counts: seq<nat>): nat
    decreases |counts|
  {
    if |counts| == 0 then 0
    else (if counts[0] != 1 then 1 else 0) + Deviations(counts[1..])
  }

  /**
   * The reducer counts one deception per change point whose new value is
   * not exactly one face, and ends on the last observed count.
   */
  lemma {:induction false} MonitorCountsChangePoints(p: Presence, counts: seq<nat>)
    requires Coherent(p)
    ensures Coherent(Monitor(p, counts))
    ensures Monitor(p, counts).deceptionAttempts
      == p.deceptionAttempts + Deviations(ChangePoints(p.facesDetected, counts))
    ensures Monitor(p, counts).facesDetected
      == if |counts| == 0 then p.facesDetected else counts[|counts| - 1]
    decreases |counts|
  {
    if |counts| > 0 {
      var q := Observe(p, counts[0]);
      MonitorCountsChangePoints(q, counts[1..]);
      if counts[0] != p.facesDetected {
        assert Deviations(ChangePoints(p.facesDetected, counts))
            == (if counts[0] != 1 then 1 else 0) + Deviations(ChangePoints(counts[0], counts[1..]));
      }
      if |counts| > 1 {
        assert counts[1..][|counts[1..]| - 1] == counts[|counts| - 1];
      }
    }
  }

  /**
   * A whole session from mount: the mount run with count 0 counts as a
   * change point of its own.
   */
  lemma SessionDeceptions(counts: seq<nat>)
    ensures Monitor(Mounted(), counts).deceptionAttempts == Deviations([0] + ChangePoints(0, counts))
  {
    MonitorCountsChangePoints(Mounted(), counts);
    assert ([0] + ChangePoints(0, counts))[1..] == ChangePoints(0, counts);
  }

  /** The deception counter never decreases over any sequence of results. */
  lemma {:induction false} MonitorMonotone(p: Presence, counts: seq<nat>)
    requires Coherent(p)
    ensures Monitor(p, counts).deceptionAttempts >= p.deceptionAttempts
    decreases |counts|
  {
    if |counts| > 0 {
      MonitorMonotone(Observe(p, counts[0]), counts[1..]);
    }
  }

  /** Worked sessions: `[1,1,0,2,1]` counts the mount, the 0 and the 2; repeated zeros count once. */
  lemma SessionSamples()
    ensures Monitor(Mounted(), [1, 1, 0, 2, 1]).deceptionAttempts == 3
    ensures Monitor(Mounted(), [0, 0, 0]).deceptionAttempts == 1
    ensures Monitor(Mounted(), [2, 2, 3]).deceptionAttempts == 3
  {
    SessionDeceptions([1, 1, 0, 2, 1]);
    SessionDeceptions([0, 0, 0]);
    SessionDeceptions([2, 2, 3]);
  }

  /** The countdown: seconds left, and whether the interval is still scheduled. */
  datatype Clock = Clock(timeLeft: int, running: bool)

  const Start: Clock := Clock(InterviewSeconds, true)

  /** What one run of the `setTimeLeft` updater does. */
  datatype Tick = Tick(next: int, expired: bool)

  /** The updater: expiry (clear the interval, alert, close) when `prev <= 0`; always `prev - 1`. */
  function TickOnce(prev: int): (t: Tick)
    ensures t.next == prev - 1
    ensures t.expired <==> prev <= 0
  {
    Tick(prev - 1, prev <= 0)
  }

  /** One second: a cleared interval does not fire again. */
  function Step(c: Clock): Clock {
    if !c.running then c
    else
      var t := TickOnce(c.timeLeft);
      Clock(t.next, !t.expired)
  }

  /** `n` seconds of the interval. */
  function Advance(c: Clock, n: nat): Clock
    decreases n
  {
    if n == 0 then c else Advance(Step(c), n - 1)
  }

  /** How many of those `n` seconds take the expiry branch. */
  function Expiries(c: Clock, n: nat): nat
    decreases n
  {
    if n == 0 then 0
    else (if c.running && TickOnce(c.timeLeft).expired then 1 else 0) + Expiries(Step(c), n - 1)
  }

  /**
   * From `t >= 0` seconds left the clock counts down one per second, takes
   * the expiry branch on the tick that finds 0, ends on -1, and then stops.
   */
  lemma {:induction false} CountdownFrom(t: nat, n: nat)
    ensures Advance(Clock(t, true), n) == if n <= t then Clock(t - n, true) else Clock(-1, false)
    ensures Expiries(Clock(t, true), n) == if n <= t then 0 else 1
    decreases n
  {
    if n > 0 {
      if t == 0 {
        StoppedStays(Clock(-1, false), n - 1);
      } else {
        CountdownFrom(t - 1, n - 1);
      }
    }
  }

  /** A stopped clock never changes and never expires again. */
  lemma {:induction false} StoppedStays(c: Clock, n: nat)
    requires !c.running
    ensures Advance(c, n) == c && Expiries(c, n) == 0
    decreases n
  {
    if n > 0 {
      StoppedStays(c, n - 1);
    }
  }

  /** The interview clock: expiry fires exactly once, on the 601st second. */
  lemma InterviewClock(n: nat)
    ensures n <= 600 ==> Advance(Start, n) == Clock(600 - n, true)
    ensures n > 600 ==> Advance(Start, n) == Clock(-1, false)
    ensures Expiries(Start, n) == if n > 600 then 1 else 0
  {
    CountdownFrom(600, n);
  }

  /** JavaScript's `s % 60`: the remainder takes the sign of the dividend. */
  function Rem60(s: int): (r: int)
    ensures (s - r) % 60 == 0
    ensures s >= 0 ==> 0 <= r < 60
    ensures s < 0 ==> -60 < r <= 0
  {
    if s >= 0 then s % 60 else -((-s) % 60)
  }

  /** `formatTime`: `Math.floor(s / 60)`, a colon, a `0` when the remainder is below 10, the remainder. */
  function FormatTime(seconds: int): (r: string)
    ensures seconds >= 0 ==> |r| >= 4 && r[|r| - 3] == ':' && AllDigits(r[|r| - 2..])
    ensures seconds < 0 ==> |r| > 0 && r[0] == '-'
  {
    var minutes := seconds / 60;
    var secs := Rem60(seconds);
    var field := (if secs < 10 then "0" else "") + ShowInt(secs);
    assert seconds >= 0 ==> |field| == 2 && AllDigits(field) by {
      if seconds >= 0 && secs >= 10 {
        assert Show(secs) == Show(secs / 10) + [DigitChar(secs % 10)];
      }
    }
    ShowInt(minutes) + ":" + field
  }

  /** Reference reader for `m:ss`: decimal minutes, a colon, two digits below 60. */
  function ParseClock(text: string): Option<int> {
    if |text| >= 4 && text[|text| - 3] == ':'
      && AllDigits(text[..|text| - 3]) && AllDigits(text[|text| - 2..])
      && Value(text[|text| - 2..]) < 60
    then Some(60 * Value(text[..|text| - 3]) + Value(text[|text| - 2..]))
    else None
  }

  /** The seconds field of a non-negative time: two digits reading back as the remainder. */
  lemma SecondsField(secs: nat)
    requires secs < 60
    ensures var ss := (if secs < 10 then "0" else "") + Show(secs);
      |ss| == 2 && AllDigits(ss) && Value(ss) == secs
  {
    var ss := (if secs < 10 then "0" else "") + Show(secs);
    ValueOfShow(secs);
    if secs >= 10 {
      assert Show(secs) == Show(secs / 10) + [DigitChar(secs % 10)];
    } else {
      ValueAppend("0", Show(secs));
    }
  }

  /** The reader takes a decimal minutes field, a colon and a two-digit seconds field apart. */
  lemma ParseClockOf(mm: string, ss: string)
    requires |mm| >= 1 && AllDigits(mm)
    requires |ss| == 2 && AllDigits(ss) && Value(ss) < 60
    ensures ParseClock(mm + ":" + ss) == Some(60 * Value(mm) + Value(ss))
  {
    var text := mm + ":" + ss;
    var n := |text|;
    assert text[..n - 3] == mm && text[n - 2..] == ss && text[n - 3] == ':' by {
      assert text == mm + ":" + ss;
    }
    assert Value(text[..n - 3]) == Value(mm) && Value(text[n - 2..]) == Value(ss);
  }

  /** For a non-negative time the rendering is `m:ss` with `m = s div 60`, and it reads back to `s`. */
  lemma FormatTimeRoundTrip(seconds: int)
    requires seconds >= 0
    ensures var text := FormatTime(seconds);
      && text[..|text| - 3] == Show(seconds / 60)
      && ParseClock(text) == Some(seconds)
  {
    var m := seconds / 60;
    var secs := seconds % 60;
    var ss := (if secs < 10 then "0" else "") + Show(secs);
    SecondsField(secs);
    var text := FormatTime(seconds);
    assert text == Show(m) + ":" + ss;
    assert text[..|text| - 3] == Show(m);
    ValueOfShow(m);
    ParseClockOf(Show(m), ss);
    assert 60 * m + secs == seconds;
  }

  /** The starting time renders as `10:00`. */
  lemma FormatStart()
    ensures FormatTime(InterviewSeconds) == "10:00"
  {
    assert Show(10) == "10";
  }

  /** The last second of a minute keeps a single-digit minute field. */
  lemma FormatLastSecondOfMinute()
    ensures FormatTime(59) == "0:59"
  {
    assert Show(59) == "59";
  }

  /** The value the expiry tick leaves behind renders as `-1:0-1`. */
  lemma FormatAfterExpiry()
    ensures FormatTime(-1) == "-1:0-1"
  {
    assert -1 / 60 == -1 && Rem60(-1) == -1;
    assert ShowInt(-1) == "-1";
  }
}

=== FILE: text.dfy ===
/**
 * String helpers with JavaScript semantics: `String.prototype.trim`,
 * `String.prototype.includes` and the ASCII part of `toLowerCase`.
 */
module Text {

  /** The characters `trim` strips: ECMAScript WhiteSpace and LineTerminator. */
  predicate IsJsWhitespace(c: char) {
    || c == '\t' || c == '\n' || c == '\U{000B}' || c == '\U{000C}' || c == '\r'
    || c == ' ' || c == '\U{00A0}' || c == '\U{1680}'
    || ('\U{2000}' <= c <= '\U{200A}')
    || c == '\U{2028}' || c == '\U{2029}' || c == '\U{202F}' || c == '\U{205F}'
    || c == '\U{3000}' || c == '\U{FEFF}'
  }

  /** Every character of `s` is whitespace (the empty string included). */
  predicate IsBlank(s: string) {
    forall i :: 0 <= i < |s| ==> IsJsWhitespace(s[i])
  }

  /** Drops leading whitespace. */
  function TrimStart(s: string): string {
    if |s| > 0 && IsJsWhitespace(s[0]) then TrimStart(s[1..]) else s
  }

  /** Drops trailing whitespace. */
  function TrimEnd(s: string): string {
    if |s| > 0 && IsJsWhitespace(s[|s| - 1]) then TrimEnd(s[..|s| - 1]) else s
  }

  /** `s.trim()`. */
  function Trim(s: string): string {
    TrimEnd(TrimStart(s))
  }

  /** `TrimStart` keeps the longest suffix that does not start with whitespace. */
  lemma {:induction false} TrimStartSpec(s: string)
    ensures |TrimStart(s)| <= |s| && TrimStart(s) == s[|s| - |TrimStart(s)|..]
    ensures TrimStart(s) == [] || !IsJsWhitespace(TrimStart(s)[0])
    ensures IsBlank(s[..|s| - |TrimStart(s)|])
  {
    if |s| > 0 && IsJsWhitespace(s[0]) {
      var r := TrimStart(s[1..]);
      TrimStartSpec(s[1..]);
      assert s[..|s| - |r|] == [s[0]] + s[1..][..|s| - 1 - |r|];
    }
  }

  /** `TrimEnd` keeps the longest prefix that does not end with whitespace. */
  lemma {:induction false} TrimEndSpec(s: string)
    ensures |TrimEnd(s)| <= |s| && TrimEnd(s) == s[..|TrimEnd(s)|]
    ensures TrimEnd(s) == [] || !IsJsWhitespace(TrimEnd(s)[|TrimEnd(s)| - 1])
    ensures IsBlank(s[|TrimEnd(s)|..])
  {
    if |s| > 0 && IsJsWhitespace(s[|s| - 1]) {
      var r := TrimEnd(s[..|s| - 1]);
      TrimEndSpec(s[..|s| - 1]);
      assert s[|r|..] == s[..|s| - 1][|r|..] + [s[|s| - 1]];
    }
  }

  /** `s.trim()` is the empty string exactly when `s` consists of whitespace only. */
  lemma TrimEmptyIffBlank(s: string)
    ensures Trim(s) == [] <==> IsBlank(s)
  {
    var t := TrimStart(s);
    TrimStartSpec(s);
    TrimEndSpec(t);
    assert s == s[..|s| - |t|] + t;
    if |t| > 0 {
      assert !IsJsWhitespace(s[|s| - |t|]);
    }
    if Trim(s) == [] {
      assert IsBlank(t) by { assert t[0..] == t; }
      assert t == [];
    }
  }

  /** `s` starts with `p`. */
  predicate StartsWith(s: string, p: string) {
    |p| <= |s| && s[..|p|] == p
  }

  /** `s.includes(sub)`, scanning left to right. */
  predicate Contains(s: string, sub: string)
    decreases |s|
  {
    StartsWith(s, sub) || (|s| > 0 && Contains(s[1..], sub))
  }

  /** `sub` occurs in `s` at position `i`. */
  predicate OccursAt(s: string, sub: string, i: int) {
    0 <= i && i + |sub| <= |s| && s[i..i + |sub|] == sub
  }

  /** The scan agrees with the positional definition of a substring occurrence. */
  lemma {:induction false} ContainsIffOccurs(s: string, sub: string)
    ensures Contains(s, sub) <==> exists i :: OccursAt(s, sub, i)
    decreases |s|
  {
    if StartsWith(s, sub) {
      assert OccursAt(s, sub, 0);
    } else if |s| == 0 {
      assert |sub| > 0;
    } else {
      ContainsIffOccurs(s[1..], sub);
      if exists i :: OccursAt(s[1..], sub, i) {
        var i :| OccursAt(s[1..], sub, i);
        assert s[i + 1..i + 1 + |sub|] == s[1..][i..i + |sub|];
        assert OccursAt(s, sub, i + 1);
      }
      if exists i :: OccursAt(s, sub, i) {
        var i :| OccursAt(s, sub, i);
        assert i != 0;
        assert s[1..][i - 1..i - 1 + |sub|] == s[i..i + |sub|];
        assert OccursAt(s[1..], sub, i - 1);
      }
    }
  }

  /** ASCII lower-casing of one character. */
  function LowerChar(c: char): (r: char)
    ensures 'A' <= c <= 'Z' ==> 'a' <= r <= 'z' && r as int - c as int == 32
    ensures !('A' <= c <= 'Z') ==> r == c
  {
    if 'A' <= c <= 'Z' then (c as int + 32) as char else c
  }

  /** `s.toLowerCase()` restricted to the ASCII letters. */
  function Lower(s: string): (r: string)
    ensures |r| == |s|
    ensures forall i :: 0 <= i < |s| ==> r[i] == LowerChar(s[i])
  {
    seq(|s|, i requires 0 <= i < |s| => LowerChar(s[i]))
  }

}

=== FILE: upload.dfy ===
/**
 * The document-verification form of `VerifyDocument`: the file gate, the
 * zoom clamp, the simulated progress bar, the document-ID increment and the
 * guards and reset of the approve action.
 *
 * The HTTP upload is abstract: it either succeeds or fails with a message.
 */
module Upload {
  import opened Options
  import opened Decimal

  /** 10 MiB, the largest accepted file. */
  const MaxSize: nat := 10 * 1024 * 1024

  const ValidTypes: seq<string> := ["application/pdf", "image/png", "image/jpeg"]

  const TypeError: string := "Invalid file type. Please upload PDF, PNG, or JPG"
  const SizeError: string := "File is too large. Maximum size is 10MB"
  const NoFileMessage: string := "Please select a file to upload."
  const NoEmailMessage: string := "User email not found. Please sign in."

  const MinZoom: int := 50
  const MaxZoom: int := 200
  const ZoomStep: int := 10

  /** The first document ID, written as its prefix and its trailing digit run. */
  const FirstDocumentId: string := "DOC-2023-" + "0015"

  /** The parts of a browser `File` the form looks at. */
  datatype FileInfo = FileInfo(name: string, mime: string, size: nat)

  /** The `type` of the status banner: `''`, `'info'`, `'success'` or `'error'`. */
  datatype StatusKind = Blank | Info | Succeeded | Failed

  datatype Status = Status(message: string, kind: StatusKind)

  /** The form's state. */
  datatype Form = Form(
    selectedCandidate: string,
    selectedDocType: string,
    file: Option<FileInfo>,
    preview: string,
    uploadProgress: int,
    zoomLevel: int,
    notes: string,
    documentId: string,
    error: string,
    uploadStatus: Status)

  const InitialForm: Form :=
    Form("", "", None, "", 0, 100, "", FirstDocumentId, "", Status("", Blank))

  /** A file the gate lets through: an allowed type and at most 10 MiB. */
  predicate Acceptable(file: FileInfo) {
    file.mime in ValidTypes && file.size <= MaxSize
  }

  /** `handleFile`: the type check, then the size check, then accept. */
  function HandleFile(f: Form, file: FileInfo): (r: Form)
    ensures Acceptable(file) <==> r.error == ""
    ensures file.mime !in ValidTypes ==> r == f.(error := TypeError)
    ensures file.mime in ValidTypes && file.size > MaxSize ==> r == f.(error := SizeError)
    ensures Acceptable(file) ==> r == f.(error := "", file := Some(file), uploadProgress := 0)
  {
    if file.mime !in ValidTypes then f.(error := TypeError)
    else if file.size > MaxSize then f.(error := SizeError)
    else f.(error := "", file := Some(file), uploadProgress := 0)
  }

  /** The boundary: exactly 10 MiB passes, one byte more does not, and a bad type is reported first. */
  lemma FileGateBoundary(f: Form, name: string)
    ensures HandleFile(f, FileInfo(name, "application/pdf", 10485760)).file.Some?
    ensures HandleFile(f, FileInfo(name, "image/png", 10485761)).error == SizeError
    ensures HandleFile(f, FileInfo(name, "image/gif", 10485761)).error == TypeError
    ensures HandleFile(f, FileInfo(name, "image/jpg", 1)).error == TypeError
  {
  }

  /** `handleZoom`: ten up capped at 200, or ten down floored at 50. */
  function Zoom(prev: int, zoomIn: bool): (r: int)
    ensures zoomIn ==> r <= MaxZoom && r <= prev + ZoomStep && (r == prev + ZoomStep || r == MaxZoom)
    ensures !zoomIn ==> r >= MinZoom && r >= prev - ZoomStep && (r == prev - ZoomStep || r == MinZoom)
  {
    if zoomIn then (if prev + ZoomStep < MaxZoom then prev + ZoomStep else MaxZoom)
    else (if prev - ZoomStep > MinZoom then prev - ZoomStep else MinZoom)
  }

  /** The levels reachable from 100: multiples of ten between 50 and 200. */
  predicate ValidZoom(z: int) {
    MinZoom <= z <= MaxZoom && z % ZoomStep == 0
  }

  /** A sequence of zoom clicks. */
  function ZoomAll(z: int, clicks: seq<bool>): int
    decreases |clicks|
  {
    if |clicks| == 0 then z else ZoomAll(Zoom(z, clicks[0]), clicks[1..])
  }

  /** Any sequence of clicks keeps a valid level valid, so from 100 the level stays in [50, 200]. */
  lemma {:induction false} ZoomStaysValid(z: int, clicks: seq<bool>)
    requires ValidZoom(z)
    ensures ValidZoom(ZoomAll(z, clicks))
    decreases |clicks|
  {
    if |clicks| > 0 {
      ZoomStaysValid(Zoom(z, clicks[0]), clicks[1..]);
    }
  }

  /** Away from the bounds, zooming in and out undo each other. */
  lemma ZoomInverse(z: int)
    requires MinZoom <= z <= MaxZoom - ZoomStep
    ensures Zoom(Zoom(z, true), false) == z
    ensures Zoom(Zoom(z + ZoomStep, false), true) == z + ZoomStep
  {
  }

  /** One run of the progress updater: the next value, and whether the interval is cleared. */
  datatype ProgressTick = ProgressTick(next: int, stop: bool)

  /** The simulated progress updater: +5 below 100, otherwise stop at 100. */
  function ProgressStep(prev: int): (t: ProgressTick)
    ensures t.stop <==> prev >= 100
    ensures t.stop ==> t.next == 100
    ensures !t.stop ==> t.next == prev + 5 && t.next < 105
  {
    if prev >= 100 then ProgressTick(100, true) else ProgressTick(prev + 5, false)
  }

  /** The simulated bar: its value and whether its interval is still scheduled. */
  datatype Bar = Bar(progress: int, running: bool)

  function BarStep(b: Bar): Bar {
    if !b.running then b
    else
      var t := ProgressStep(b.progress);
      Bar(t.next, !t.stop)
  }

  /** `n` ticks of 200 ms. */
  function BarAfter(b: Bar, n: nat): Bar
    decreases n
  {
    if n == 0 then b else BarAfter(BarStep(b), n - 1)
  }

  /**
   * From `5k` (at most 100) the bar gains 5 per tick until 100, then the
   * interval is cleared on the tick that finds 100.
   */
  lemma {:induction false} BarFrom(k: nat, n: nat)
    requires k <= 20
    ensures BarAfter(Bar(5 * k, true), n)
      == if k + n <= 20 then Bar(5 * (k + n), true) else Bar(100, false)
    decreases n
  {
    if n > 0 {
      if k == 20 {
        BarStopped(Bar(100, false), n - 1);
      } else {
        BarFrom(k + 1, n - 1);
      }
    }
  }

  lemma {:induction false} BarStopped(b: Bar, n: nat)
    requires !b.running
    ensures BarAfter(b, n) == b
    decreases n
  {
    if n > 0 {
      BarStopped(b, n - 1);
    }
  }

  /** After a file is accepted the bar reads `min(5n, 100)` and never passes 100. */
  lemma ProgressFromZero(n: nat)
    ensures BarAfter(Bar(0, true), n).progress == if 5 * n < 100 then 5 * n else 100
    ensures BarAfter(Bar(0, true), n).progress <= 100
    ensures BarAfter(Bar(0, true), n).running <==> n <= 20
  {
    BarFrom(0, n);
  }

  /** Where the trailing run of digits starts (`/\d+$/`); `|s|` when there is none. */
  function DigitRunStart(s: string): (k: nat)
    ensures k <= |s|
    decreases |s|
  {
    if |s| > 0 && IsDigit(s[|s| - 1]) then DigitRunStart(s[..|s| - 1]) else |s|
  }

  /** The run is maximal: all digits after `k`, and no digit just before it. */
  lemma {:induction false} DigitRunStartSpec(s: string)
    ensures AllDigits(s[DigitRunStart(s)..])
    ensures DigitRunStart(s) == 0 || !IsDigit(s[DigitRunStart(s) - 1])
    decreases |s|
  {
    if |s| > 0 && IsDigit(s[|s| - 1]) {
      var p := s[..|s| - 1];
      var k := DigitRunStart(p);
      assert DigitRunStart(s) == k;
      DigitRunStartSpec(p);
      forall i | k <= i < |s|
        ensures IsDigit(s[i])
      {
        if i < |s| - 1 {
          assert s[i] == p[i];
        }
      }
      assert k == 0 || !IsDigit(s[k - 1]) by {
        if k > 0 {
          assert s[k - 1] == p[k - 1];
        }
      }
    }
  }

  /** Any prefix ending in a non-digit followed by digits has its run start at the prefix's end. */
  lemma {:induction false} DigitRunStartOf(p: string, d: string)
    requires AllDigits(d)
    requires p == [] || !IsDigit(p[|p| - 1])
    ensures DigitRunStart(p + d) == |p|
    decreases |d|
  {
    if |d| > 0 {
      assert (p + d)[..|p + d| - 1] == p + d[..|d| - 1];
      DigitRunStartOf(p, d[..|d| - 1]);
    } else {
      assert p + d == p;
    }
  }

  /** The replacement for a digit run: its value plus one, left-padded with zeros to its width. */
  function NextDigits(run: string): string
    requires AllDigits(run)
  {
    PadStart(Show(Value(run) + 1), |run|, '0')
  }

  /**
   * The new document ID: the trailing digits replaced by `NextDigits`;
   * unchanged without trailing digits.
   */
  function IncrementId(id: string): (r: string)
    ensures |r| >= |id|
    ensures r[..DigitRunStart(id)] == id[..DigitRunStart(id)]
  {
    var k := DigitRunStart(id);
    if k == |id| then id
    else
      DigitRunStartSpec(id);
      PadStartSpec(Show(Value(id[k..]) + 1), |id[k..]|, '0');
      id[..k] + NextDigits(id[k..])
  }

  /**
   * Padding the successor of a `w`-digit value to `w` digits keeps the
   * width, except when the successor is `10^w`, which takes one more digit.
   */
  lemma PaddedSuccessorWidth(v: nat, w: nat)
    requires w >= 1 && v < Pow10(w)
    ensures |PadStart(Show(v + 1), w, '0')| == w + (if v + 1 == Pow10(w) then 1 else 0)
  {
    PadStartLength(Show(v + 1), w, '0');
    ShowFits(v + 1, w);
    if v + 1 == Pow10(w) {
      ShowFits(v + 1, w + 1);
    }
  }

  /** The replacement keeps the run's width, and is one wider exactly when the run was all nines. */
  lemma NextDigitsLength(run: string)
    requires AllDigits(run) && |run| > 0
    ensures |NextDigits(run)| == |run| + (if Value(run) + 1 == Pow10(|run|) then 1 else 0)
  {
    ValueBound(run);
    PaddedSuccessorWidth(Value(run), |run|);
  }

  /** The replacement is a digit string reading one more than the run. */
  lemma NextDigitsValue(run: string)
    requires AllDigits(run)
    ensures AllDigits(NextDigits(run))
    ensures Value(NextDigits(run)) == Value(run) + 1
  {
    var shown := Show(Value(run) + 1);
    assert NextDigits(run) == PadStart(shown, |run|, '0');
    ValueOfShow(Value(run) + 1);
    ValueOfZeroPad(shown, |run|);
  }

  /** The replacement reads one more than the run, and is one longer exactly when the run was all nines. */
  lemma NextDigitsSpec(run: string)
    requires AllDigits(run) && |run| > 0
    ensures AllDigits(NextDigits(run))
    ensures Value(NextDigits(run)) == Value(run) + 1
    ensures |NextDigits(run)| == |run| + (if Value(run) + 1 == Pow10(|run|) then 1 else 0)
  {
    NextDigitsValue(run);
    NextDigitsLength(run);
  }

  /**
   * The increment keeps the prefix, the numeric suffix reads one more than
   * before, and the ID grows by one character only when the suffix was all
   * nines.
   */
  lemma IncrementIdSpec(id: string)
    ensures DigitRunStart(id) == |id| ==> IncrementId(id) == id
    ensures var k := DigitRunStart(id); var r := IncrementId(id);
      k < |id| ==>
        && AllDigits(id[k..])
        && r[..k] == id[..k]
        && DigitRunStart(r) == k
        && AllDigits(r[k..])
        && Value(r[k..]) == Value(id[k..]) + 1
        && |r| == |id| + (if Value(id[k..]) + 1 == Pow10(|id| - k) then 1 else 0)
  {
    var k := DigitRunStart(id);
    if k < |id| {
      DigitRunStartSpec(id);
      var run := id[k..];
      var digits := NextDigits(run);
      var r := IncrementId(id);
      assert r[k..] == digits && r[..k] == id[..k] by {
        assert r == id[..k] + digits;
      }
      NextDigitsSpec(run);
      ReplaceRun(id, digits);
    }
  }

  /** Replacing the trailing run by other digits keeps where the run starts. */
  lemma ReplaceRun(id: string, digits: string)
    requires AllDigits(digits)
    ensures DigitRunStart(id[..DigitRunStart(id)] + digits) == DigitRunStart(id)
  {
    var k := DigitRunStart(id);
    DigitRunStartSpec(id);
    var p := id[..k];
    assert p == [] || p[|p| - 1] == id[k - 1];
    DigitRunStartOf(p, digits);
  }

  /** One worked increment: the prefix, the digit run and its replacement. */
  lemma IncrementSample(prefix: string, run: string, next: string)
    requires prefix == [] || !IsDigit(prefix[|prefix| - 1])
    requires AllDigits(run) && |run| > 0
    requires next == NextDigits(run)
    ensures IncrementId(prefix + run) == prefix + next
  {
    DigitRunStartOf(prefix, run);
    var id := prefix + run;
    assert id[..|prefix|] == prefix && id[|prefix|..] == run;
  }

  /** The digit runs of the worked increments, read as numbers. */
  lemma ValueOfFirstRun()
    ensures Value("0015") == 15
  {
    assert "0015"[..3] == "001" && "001"[..2] == "00" && "00"[..1] == "0";
  }

  lemma ValueOfPaddedNines()
    ensures Value("0099") == 99
  {
    assert "0099"[..3] == "009" && "009"[..2] == "00" && "00"[..1] == "0";
  }

  lemma ValueOfNines()
    ensures Value("99") == 99
  {
    assert "99"[..1] == "9";
  }

  /** The successors of the worked runs, written out. */
  lemma ShowSixteen()
    ensures Show(16) == "16"
  {
    assert DigitChar(6) == '6' && DigitChar(1) == '1';
  }

  lemma ShowHundred()
    ensures Show(100) == "100"
  {
    assert DigitChar(0) == '0' && DigitChar(1) == '1';
    assert Show(10) == "10";
  }

  /** `0015` is followed by `0016`. */
  lemma NextDigitsOfFirstRun()
    ensures NextDigits("0015") == "0016"
  {
    ValueOfFirstRun();
    ShowSixteen();
    assert seq(2, _ => '0') + "16" == "0016";
  }

  /** `0099` is followed by `0100`. */
  lemma NextDigitsOfPaddedNines()
    ensures NextDigits("0099") == "0100"
  {
    ValueOfPaddedNines();
    ShowHundred();
    assert seq(1, _ => '0') + "100" == "0100";
  }

  /** `99` is followed by `100`. */
  lemma NextDigitsOfNines()
    ensures NextDigits("99") == "100"
  {
    ValueOfNines();
    ShowHundred();
  }

  /** The first ID of the form moves from `0015` to `0016`. */
  lemma IncrementFirstId()
    ensures IncrementId(FirstDocumentId) == "DOC-2023-" + "0016"
  {
    NextDigitsOfFirstRun();
    IncrementSample("DOC-2023-", "0015", "0016");
  }

  /** Zero padding absorbs a carry. */
  lemma IncrementPaddedCarry()
    ensures IncrementId("DOC-" + "0099") == "DOC-" + "0100"
  {
    NextDigitsOfPaddedNines();
    IncrementSample("DOC-", "0099", "0100");
  }

  /** An all-nines run grows by one digit. */
  lemma IncrementOverflow()
    ensures IncrementId("DOC-" + "99") == "DOC-" + "100"
  {
    NextDigitsOfNines();
    IncrementSample("DOC-", "99", "100");
  }

  /** Without trailing digits the ID is left as it is. */
  lemma IncrementWithoutDigits()
    ensures IncrementId("DOC-") == "DOC-"
  {
  }

  /** The upload's outcome. */
  datatype UploadOutcome = Uploaded | UploadFailed(message: string)

  /** The form after `handleApprove`, and whether the upload was attempted at all. */
  datatype Approval = Approval(form: Form, attempted: bool)

  /** A signed-in user's primary e-mail, as the optional-chained truthiness test sees it. */
  predicate HasEmail(email: Option<string>) {
    email.Some? && email.value != []
  }

  /** `handleApprove`: the two guards, then the upload and its success reset or failure status. */
  function Approve(f: Form, email: Option<string>, outcome: UploadOutcome): (r: Approval)
    ensures r.attempted <==> f.file.Some? && HasEmail(email)
    ensures f.file.None? ==> r.form == f.(uploadStatus := Status(NoFileMessage, Failed))
    ensures f.file.Some? && !HasEmail(email) ==> r.form == f.(uploadStatus := Status(NoEmailMessage, Failed))
    ensures r.attempted && outcome.Uploaded? ==>
      && r.form.file.None? && r.form.preview == [] && r.form.notes == []
      && r.form.selectedCandidate == [] && r.form.selectedDocType == []
      && r.form.uploadProgress == 0 && r.form.error == []
      && r.form.zoomLevel == f.zoomLevel
      && r.form.documentId == IncrementId(f.documentId)
      && r.form.uploadStatus == Status("Document " + f.documentId + " approved and uploaded successfully!", Succeeded)
    ensures r.attempted && outcome.UploadFailed? ==>
      r.form == f.(uploadStatus := Status("Upload failed: " + outcome.message, Failed))
  {
    if f.file.None? then Approval(f.(uploadStatus := Status(NoFileMessage, Failed)), false)
    else if !HasEmail(email) then Approval(f.(uploadStatus := Status(NoEmailMessage, Failed)), false)
    else
      match outcome
      case Uploaded =>
        Approval(f.(file := None, preview := "", notes := "", selectedCandidate := "",
                    selectedDocType := "", uploadProgress := 0, error := "",
                    documentId := IncrementId(f.documentId),
                    uploadStatus := Status("Document " + f.documentId + " approved and uploaded successfully!", Succeeded)),
                 true)
      case UploadFailed(message) =>
        Approval(f.(uploadStatus := Status("Upload failed: " + message, Failed)), true)
  }

  /** The file the form holds, if any, passed the gate. */
  predicate HoldsAcceptedFile(f: Form) {
    f.file.None? || Acceptable(f.file.value)
  }

  /** What the user does on the form: pick a file, or press approve with the upload's outcome. */
  datatype Action = Choose(file: FileInfo) | Press(email: Option<string>, outcome: UploadOutcome)

  function Act(f: Form, a: Action): Form {
    match a
    case Choose(file) => HandleFile(f, file)
    case Press(email, outcome) => Approve(f, email, outcome).form
  }

  /** A sequence of actions, in order. */
  function Perform(f: Form, actions: seq<Action>): Form
    decreases |actions|
  {
    if |actions| == 0 then f else Perform(Act(f, actions[0]), actions[1..])
  }

  /** No sequence of file choices and approvals makes the form hold a file the gate rejected. */
  lemma {:induction false} HeldFileAcceptable(f: Form, actions: seq<Action>)
    requires HoldsAcceptedFile(f)
    ensures HoldsAcceptedFile(Perform(f, actions))
    decreases |actions|
  {
    if |actions| > 0 {
      HeldFileAcceptable(Act(f, actions[0]), actions[1..]);
    }
  }

  /** From the first render, every upload the approve button starts sends a file that passed the gate. */
  lemma UploadsOnlyAcceptedFiles(actions: seq<Action>, email: Option<string>, outcome: UploadOutcome)
    ensures var f := Perform(InitialForm, actions);
      Approve(f, email, outcome).attempted ==> Acceptable(f.file.value)
  {
    HeldFileAcceptable(InitialForm, actions);
  }

  /**
   * After a successful approval the next approve is blocked until a new
   * file is accepted, and the ID has moved on by exactly one.
   */
  lemma ApproveThenApprove(f: Form, email: Option<string>, again: UploadOutcome)
    requires f.file.Some? && HasEmail(email)
    ensures var g := Approve(f, email, Uploaded).form;
      && !Approve(g, email, again).attempted
      && Approve(g, email, again).form.documentId == IncrementId(f.documentId)
  {
  }
}
